=== FILE: README.md ===
# GearGuard maintenance domain, modelled in Dafny

This project models the rules of a maintenance-management back end and the two pages that
derive figures from it. Technicians and administrators track equipment, maintenance teams
and repair requests. The database becomes a `Store` holding four maps, id to record: users,
teams, equipment and requests. Each HTTP handler becomes a pure function of the store and
its input. A handler that writes returns a `Reply`, which pairs the response with the store
it leaves behind. A read-only handler, such as the lists, `getEquipmentById` and `login`,
returns only the `Response`. The response is the status code with the created or returned
entity, or the error message. The `protect` middleware returns a `Verdict`: either go on
with the user or reject with a code and message.

Files, one module each:

- `common.dfy`: `Option`, JavaScript's `filter` as `Filter`, the subsequence relation, `includes` as `Contains`, and lemmas about them.
- `records.dfy`: the request, equipment, team and user records, the status and type enums with their spellings, the schema defaults, the `Store`, and the uniqueness invariants.
- `http.dfy`: status codes, `Response` and `Reply`.
- `request_controller.dfy`: the request controller. It handles create with team auto-fill, assign, status update, the preventive list and delete.
- `request_router.dfy`: the request router the server mounts. It handles POST create and PATCH status.
- `request_divergence.dfy`: lemmas showing exactly where the controller and the router disagree.
- `request_lifecycle.dfy`: how request operations move an equipment's open-request count, plus the HVAC scenario.
- `equipment_controller.dfy`: equipment create, the open count, the scrap cascade, the per-equipment request list, and delete.
- `team_controller.dfy`: team create, add member, remove member, delete.
- `auth_controller.dfy`: register and login.
- `auth_middleware.dfy`: the `protect` gate and its bearer-token extraction.
- `client_view.dfy`, `dashboard.dfy`, `kanban.dfy`: the request as the pages receive it, the dashboard counters and search, and the kanban columns and buttons.

Some things stay abstract. Password hashing, the hash check, token signing and
verification, ObjectId syntax checking and lower-casing are function-typed parameters and
stay uninterpreted. A new document's id is a parameter that the store must not already
hold, because the database generates it. A missing field, and every other falsy JavaScript
string, is the empty string. A number is falsy only when it is 0.

Request creation and status update exist twice in the source, and the model keeps both.
`RequestController` follows the controller. `RequestRouter` follows the router, which is
the one actually mounted. The two disagree:

- The router stores the scheduled date of a Corrective request. The controller drops it.
  The intended invariant that a Corrective request has no scheduled date therefore fails
  for requests created through the mounted route. The model follows the code.
- On a status update, the controller writes `duration` only on Repaired, defaulting to 0.
  The router writes `hoursSpent` whenever a non-zero value is supplied, whatever the status.

The controllers import their own schema files (`Equipment.model.js`,
`MaintenanceRequest.model.js`, `MaintenanceTeam.model.js`, `User.model.js`). Those schemas
are not part of this model. The model assumes they use the Request.js enums for request type
and status, and applies those enums to both implementations. One `Request` record carries
both time fields, `duration` and `hoursSpent`. One `Equipment.team` field stands for both
`assignedTeam` (controller) and `maintenanceTeam` (Equipment.js), and one teams map stands
for both team schemas; "## Left out" says what this hides.

## Model

| member | source | states |
|---|---|---|
| Records.ParseType | backend/models/Request.js:17-21 | the type enum accepts exactly "Corrective" and "Preventive", and a parsed type spells back to its input |
| Records.ParseTypeName | backend/models/Request.js:17-21 | every request type survives the round trip through its spelling |
| Records.ParseStatus | backend/models/Request.js:23-26 | the status enum accepts exactly the four spellings, and a parsed status spells back to its input |
| Records.ParseStatusName | backend/models/Request.js:23-26 | every status survives the round trip through its spelling |
| Records.NewRequest | backend/models/Request.js:3-31 | the built request passes the schema's required checks exactly when its subject and equipment reference are non-empty; its status is the default New |
| Records.NewEquipment | backend/models/Equipment.js:3-15 | the built equipment passes the schema's required checks exactly when it has a name and a team; it starts not scrapped |
| Records.ViewOfIgnoresPassword | backend/controllers/auth.controller.js:55-60 | the public user view does not depend on the stored password digest |
| RequestController.PopulatedTeam | backend/controllers/maintenanceRequest.controller.js:28-42 | the populated team is the equipment's team when that team still exists, and nothing otherwise |
| RequestController.CreateMaintenanceRequest | backend/controllers/maintenanceRequest.controller.js:10-60 | a missing subject, type or equipment id gives 400, and unknown equipment gives 404, both with the store unchanged; success means every check passed; the created request takes its equipment's team only when that team still exists and otherwise no team, is New, and keeps the scheduled date only when Preventive; nothing else in the store changes |
| RequestController.AssignTechnician | backend/controllers/maintenanceRequest.controller.js:94-124 | an unknown id gives 404 with no change; otherwise the technician is recorded and the status becomes In Progress from any prior status, with every other field kept |
| RequestController.UpdateRequestStatus | backend/controllers/maintenanceRequest.controller.js:132-166 | an unknown id gives 404; a status outside the enum gives 500 with no change; otherwise the status is the supplied one, the duration becomes the supplied value or 0 only on Repaired and is untouched otherwise, and nothing else changes |
| RequestController.PreventiveListAfterCreate | backend/controllers/maintenanceRequest.controller.js:176-178 | a request just created by the controller is in the preventive list exactly when it was created Preventive |
| RequestController.DeleteUndoesCreate | backend/controllers/maintenanceRequest.controller.js:202-209 | deleting a request right after the controller created it restores the store exactly |
| RequestController.GetPreventiveRequests | backend/controllers/maintenanceRequest.controller.js:174-193 | the answer holds exactly the Preventive requests, each as stored |
| RequestController.DeleteMaintenanceRequest | backend/controllers/maintenanceRequest.controller.js:200-222 | an unknown id gives 404; otherwise exactly that request is removed and every other collection is untouched |
| RequestRouter.CreateRequest | backend/routes/request.routes.js:23-48 | a malformed equipment id gives 400 and unknown equipment 404, both with no change; success holds exactly when the id is valid and known, the subject is non-empty and the type is in the enum; the request takes the equipment's team, is New, and keeps the scheduled date as supplied for both types |
| RequestRouter.CreatedRequestHasTeam | backend/models/Equipment.js:9-13 | when all equipment satisfies its schema, which requires a team, a router-created request always has a team |
| RequestRouter.PatchStatus | backend/routes/request.routes.js:51-60 | a status outside the enum gets no answer and changes nothing; otherwise the status is the supplied one, the hours are replaced only by a non-zero value, and no other field changes |
| RequestDivergence.CreateDiffersOnlyInDateAndTeam | backend/routes/request.routes.js:36-42 | when both create from the same input, the records differ only in the scheduled date and the team; they agree on the date exactly when the type is Preventive or no date was given, and on the team exactly when the equipment's team is unset or still exists |
| RequestDivergence.DanglingTeamExample | backend/controllers/maintenanceRequest.controller.js:42 | after the equipment's team is deleted, the controller files a new request under no team and the router under the deleted team's id |
| RequestDivergence.CorrectiveDateExample | backend/controllers/maintenanceRequest.controller.js:44 | for a Corrective request with a date, the controller stores none and the router stores the date |
| RequestDivergence.StatusUpdatesAgreeOnlyWithoutTime | backend/controllers/maintenanceRequest.controller.js:145-150 | both updates set the same status, and give the same record exactly when neither writes a time field |
| RequestDivergence.HoursOutsideRepairedExample | backend/routes/request.routes.js:55-56 | for a move to In Progress with 3 hours, the router records the hours and the controller records nothing |
| RequestDivergence.RepairedWithoutTimeExample | backend/controllers/maintenanceRequest.controller.js:148-150 | for Repaired with no time given, the controller records duration 0 and the router records nothing |
| RequestLifecycle.ControllerCreateOpensOne | backend/controllers/equipment.controller.js:100-103 | a controller-created request raises its equipment's open count by one and leaves the counts of all other equipment unchanged |
| RequestLifecycle.RouterCreateOpensOne | backend/controllers/equipment.controller.js:100-103 | a router-created request raises its equipment's open count by one and leaves the counts of all other equipment unchanged |
| RequestLifecycle.OpenCountAfterInsert | backend/controllers/equipment.controller.js:100-103 | inserting an open request adds one to its own equipment's count and nothing to any other |
| RequestLifecycle.RepairClosesOne | backend/controllers/maintenanceRequest.controller.js:145-150 | moving an open request to Repaired lowers its equipment's open count by one |
| RequestLifecycle.AssignReopensTerminal | backend/controllers/maintenanceRequest.controller.js:107-108 | assigning a technician to a Repaired or Scrap request raises the open count by one, because terminal statuses are not guarded |
| RequestLifecycle.DeleteUndoesRouterCreate | backend/routes/request.routes.js:36-42 | deleting a request right after the router created it restores the store exactly |
| RequestLifecycle.PreventiveListAfterRouterCreate | backend/routes/request.routes.js:36-42 | a request just created by the router is in the preventive list exactly when it was created Preventive |
| RequestLifecycle.HvacScenario | backend/controllers/maintenanceRequest.controller.js:38-45 | equipment assigned to team HVAC yields a Corrective request filed under HVAC, New, with no date, and an open count of 1 |
| EquipmentController.CreateEquipment | backend/controllers/equipment.controller.js:9-55 | a missing required field gives 400 and a taken serial number 409, both with no change; success holds exactly when neither applies; the new equipment is not scrapped; serial-number uniqueness is preserved |
| EquipmentController.GetEquipmentById | backend/controllers/equipment.controller.js:87-117 | unknown equipment gives 404; otherwise the equipment is returned with an open count that is the number of its New or In Progress requests and at most the number of its requests |
| EquipmentController.OpenCountAtMostFiled | backend/controllers/equipment.controller.js:100-103 | the open count never exceeds the number of requests filed against the equipment |
| EquipmentController.ScrapRequests | backend/controllers/equipment.controller.js:201-205 | every request of the equipment gets status Scrap whatever its status was, other requests are unchanged, and no request is added or removed |
| EquipmentController.ScrapEquipment | backend/controllers/equipment.controller.js:187-218 | unknown equipment gives 404 with no change; otherwise the equipment is flagged scrapped, the cascade applies, and users and teams are untouched |
| EquipmentController.ScrapIdempotent | backend/controllers/equipment.controller.js:198-205 | scrapping twice gives the same answer and store as scrapping once |
| EquipmentController.ScrapClosesAllRequests | backend/controllers/equipment.controller.js:198-205 | after a scrap the equipment's open count is 0 |
| EquipmentController.ScrapKeepsOtherCounts | backend/controllers/equipment.controller.js:201-205 | a scrap leaves every other equipment's open count unchanged |
| EquipmentController.GetEquipmentRequests | backend/controllers/equipment.controller.js:226-247 | the answer holds exactly the requests filed against the id, each as stored, and is a 200 even for unknown equipment |
| EquipmentController.DeleteEquipment | backend/controllers/equipment.controller.js:158-180 | unknown equipment gives 404; otherwise only that equipment record is removed and its requests remain; serial-number uniqueness is preserved |
| EquipmentController.DeleteUndoesCreate | backend/controllers/equipment.controller.js:158-167 | deleting equipment right after creating it restores the store exactly |
| EquipmentController.RequestListBoundsOpenCount | backend/controllers/equipment.controller.js:226-233 | the per-equipment request list covers exactly the requests filed against the equipment, so the reported open count never exceeds its length |
| TeamController.CreateMaintenanceTeam | backend/controllers/maintenanceTeam.controller.js:9-47 | a missing name gives 400 and a taken name 409; success holds exactly when neither applies; members default to empty; team-name uniqueness is preserved |
| TeamController.Without | backend/controllers/maintenanceTeam.controller.js:170-172 | the filtered member list holds exactly the old members other than the user, in their old order, and the user nowhere |
| TeamController.AddTeamMember | backend/controllers/maintenanceTeam.controller.js:109-151 | an absent team or user gives 404, and an existing member gives 400, all with no change; otherwise the user is appended at the end and a repeat-free list stays repeat-free |
| TeamController.RemoveTeamMember | backend/controllers/maintenanceTeam.controller.js:158-188 | an absent team gives 404; otherwise every occurrence of the user is removed, and removing a non-member succeeds with the store unchanged |
| TeamController.WithoutNonMember | backend/controllers/maintenanceTeam.controller.js:170-172 | filtering out a non-member leaves the list unchanged |
| TeamController.RemoveIdempotent | backend/controllers/maintenanceTeam.controller.js:170-174 | removing the same user twice gives the same answer and store as removing them once |
| TeamController.RemoveUndoesAdd | backend/controllers/maintenanceTeam.controller.js:136-172 | removing a user right after a successful add restores the original store |
| TeamController.WithoutUndoesAppend | backend/controllers/maintenanceTeam.controller.js:136-172 | filtering out a user just appended to a list that lacked them gives the list back |
| TeamController.DeleteMaintenanceTeam | backend/controllers/maintenanceTeam.controller.js:229-251 | an unknown team gives 404; otherwise only that team is removed; team-name uniqueness is preserved |
| TeamController.DeleteUndoesCreate | backend/controllers/maintenanceTeam.controller.js:229-238 | deleting a team right after creating it restores the store exactly |
| AuthController.Register | backend/controllers/auth.controller.js:10-70 | a missing field gives 400 and a taken email 409, both with no user created; success holds exactly when neither applies; the stored password is the hash of the supplied one; the role is the supplied one or technician; the answer is the signed token and the password-free view; email uniqueness is preserved |
| AuthController.FindByEmail | backend/controllers/auth.controller.js:90 | the lookup finds the user with that email when there is one, and nothing otherwise |
| AuthController.Login | backend/controllers/auth.controller.js:77-134 | a missing email or password gives 400; success holds exactly when a user with that email accepts the password; every other case is the one 401 "Invalid credentials"; success returns that user's view and token |
| AuthController.LoginFailuresIndistinguishable | backend/controllers/auth.controller.js:91-105 | an unknown email and a wrong password get the identical 401 answer |
| AuthController.RegisterThenLogin | backend/controllers/auth.controller.js:32-41 | when the hash check accepts a password against its own hash, a freshly registered user can log in and gets the same user view, with a token signed at login over the same id and role |
| AuthMiddleware.Split | backend/middlewares/auth.js:19 | the header splits into at least one piece, and no piece contains a space |
| AuthMiddleware.JoinSplit | backend/middlewares/auth.js:19 | joining the pieces with spaces gives the header back |
| AuthMiddleware.SplitNoSeparator | backend/middlewares/auth.js:19 | a string without spaces is a single piece |
| AuthMiddleware.SplitAfterFirst | backend/middlewares/auth.js:19 | a space-free prefix followed by a space is the first piece, and the rest splits on its own |
| AuthMiddleware.TokenOf | backend/middlewares/auth.js:15-28 | a token exists exactly when the header is present, starts with Bearer, and has a non-empty second piece; the token is that piece and contains no space |
| AuthMiddleware.TokenOfWellFormedHeader | backend/middlewares/auth.js:15-19 | "Bearer " followed by a non-empty, space-free token gives back that token |
| AuthMiddleware.BareSchemeHasNoToken | backend/middlewares/auth.js:19-28 | the header "Bearer" has no token |
| AuthMiddleware.GluedSchemeHasNoToken | backend/middlewares/auth.js:19-28 | the header "BearerX" has no token |
| AuthMiddleware.DoubleSpaceHasNoToken | backend/middlewares/auth.js:19-28 | the header "Bearer  x" with two spaces has no token |
| AuthMiddleware.TokenAfterSchemePrefix | backend/middlewares/auth.js:15-19 | any space-free first word starting with Bearer, then a space and a non-empty space-free token, yields that token |
| AuthMiddleware.LongerSchemeStillYieldsToken | backend/middlewares/auth.js:15-19 | only the prefix is checked, so "BearerX abc" still yields the token "abc" |
| AuthMiddleware.Protect | backend/middlewares/auth.js:10-50 | no token gives 401 "token missing", a token that fails verification gives 401 "invalid token", and a vanished user gives 401 "User no longer exists"; `next` is reached exactly when the token verifies to an existing user, and gets that user's password-free view |
| AuthMiddleware.RegisteredTokenPasses | backend/middlewares/auth.js:15-43 | the token register hands out, sent as "Bearer " plus the token, reaches `next` with the new user's view, given that it verifies to the id it was signed for and has no space |
| ClientView.CardOf | backend/routes/request.routes.js:9-15 | the card the pages receive carries the request's subject, and a status string that parses back to the stored status |
| Dashboard.LoadStats | frontend/src/pages/Dashboard.jsx:27-38 | overdue is at most open, and open is at most the number of requests; critical equals open; utilization lies in 0..100 and is ten times open below ten open requests, else 100 |
| Dashboard.OpenAgreesWithBackend | frontend/src/pages/Dashboard.jsx:27-29 | for a stored request, the dashboard calls it open exactly when the back-end open count does, that is when its status is New or In Progress |
| Dashboard.FilteredRequests | frontend/src/pages/Dashboard.jsx:44-46 | the result is an order-preserving subsequence of the requests and holds exactly those whose lower-cased subject contains the lower-cased search |
| Dashboard.EmptySearchKeepsAll | frontend/src/pages/Dashboard.jsx:44-46 | an empty search keeps every request, given that lower-casing maps the empty string to itself |
| Kanban.StagesAreSchemaStatuses | frontend/src/pages/Kanban.jsx:4 | the four column headings are the schema's statuses, spelled as the API sends them, in schema order |
| Kanban.StageIndex | frontend/src/pages/Kanban.jsx:4 | every stage heading has a column position whose heading it is |
| Kanban.Columns | frontend/src/pages/Kanban.jsx:23-27 | there is one column per stage in the fixed order; each column is an order-preserving subsequence of the requests, and holds exactly those whose status is its stage |
| Kanban.ExactlyOneColumn | frontend/src/pages/Kanban.jsx:23-27 | a request whose status is a stage appears in exactly one column |
| Kanban.NoColumnForOtherStatus | frontend/src/pages/Kanban.jsx:23-27 | a request with any other status appears in no column |
| Kanban.ColumnsPartition | frontend/src/pages/Kanban.jsx:23-27 | the column sizes add up to the number of requests whose status is a stage |
| Kanban.StageFiltersPartition | frontend/src/pages/Kanban.jsx:26-27 | the four stage filters together count each stage-status request once |
| Kanban.Press | frontend/src/pages/Kanban.jsx:31-33 | Start, Done and Scrap set In Progress, Repaired and Scrap; the mounted PATCH always answers them, and the hours stay untouched |

## Left out

- Persistence: the Mongoose layer, `sort({createdAt: -1})`, and `populate` joins that only shape what is displayed. Query results are maps, without an order. The one populate whose result is written, the team in `createMaintenanceRequest`, is modelled by `PopulatedTeam`.
- Plain reads with no rule of their own: listing all requests, equipment or teams, `getMaintenanceTeamById`, `getProfile`, and the router's GET handlers.
- `updateEquipment` and `updateMaintenanceTeam`. They write the request body straight to storage, and their only rule is a 404 for an unknown id.
- Cast errors from malformed ids. The controllers' `findById` throws on a malformed id and answers 500. The model treats every id a controller receives as well formed.
- The catch-all 500 branches. Schema-validation failures are modelled only for request creation (controller and router) and the controller's status update. The validators of the unmodelled schemas on `createEquipment`, `createMaintenanceTeam`, `register` and the team saves, such as a role enum, are left out.
- The JSON envelope beyond the status code, the entity and the messages the properties depend on.
- The two writes of `scrapEquipment`. They are one atomic step in the model, so concurrency and partial failure are not covered.
- RequestRouter.PatchStatus: requires the id to exist. The handler dereferences a missing document and has no answer for an unknown id.
- RequestRouter.PatchStatus: the status is always a string. A body with no status field sets the status to undefined, which the enum validator accepts because the field is not required. The source then saves a request with no status and answers 200. The model treats a missing status as the empty string and answers nothing. Such a request would fall in no kanban column and would count as open on the dashboard. `Dashboard.OpenAgreesWithBackend` relies on every request having a status.
- RequestRouter.PatchStatus: "no answer" for a status that fails validation assumes Express 4, where a rejected async handler leaves the request hanging. Express 5 would answer 500.
- RequestController.UpdateRequestStatus: the status is always a string. A body with no status field would unset the status, and that is not covered.
- AuthController.Login: requires unique emails, so the lookup by email picks one user. `Register` is the only way users are created here, and it preserves this invariant.
- One request collection. The router writes through the `Request` model of Request.js, and the controllers through `MaintenanceRequest`, whose schema file is not part of this model and may name a separate collection. The model keeps one requests map for both. `RequestLifecycle.RouterCreateOpensOne`, `RequestLifecycle.DeleteUndoesRouterCreate`, `RequestLifecycle.PreventiveListAfterRouterCreate` and the reach of `EquipmentController.ScrapEquipment`'s cascade over router-created requests hold only under this assumption.
- RequestDivergence.CreateDiffersOnlyInDateAndTeam: the model keeps one equipment map, whose `team` stands for both the controller's `assignedTeam` (Equipment.model.js) and the router's `maintenanceTeam` (Equipment.js), and one teams map for both Team.js and MaintenanceTeam.model.js. The lemma's team clause, agreement exactly when the team is unset or still exists, holds only under that assumption. In the source, equipment created through one schema lacks the other schema's field, so the other handler files the request without a team even when the team exists.
- RequestRouter.CreateRequest: requires that `isValidId` reject the empty string, as ObjectId syntax checking does. With that, an empty equipment reference is refused with 400 before the schema is consulted.
- The issue time inside a token. `jwt.sign` stamps `iat` and `exp`, so tokens issued at different instants differ. Each call site gets its own `sign` parameter, and `AuthController.RegisterThenLogin` gives register and login separate ones. The model does not say how the two relate.
- bcrypt salting, JWT signing and expiry, ObjectId syntax and lower-casing are uninterpreted parameters. The 7-day token lifetime sits inside `verify`.
- JavaScript falsy values other than the empty string and 0, such as NaN. Also the casting of dates and numbers from the request body.
- backend/routes/equipment.routes.js. It contains unresolved merge-conflict markers, so it is not valid JavaScript.
- Routing and startup: backend/routes/team.routes.js, backend/routes/maintenanceTeam.routes.js, backend/routes/maintenanceRequest.routes.js, backend/index.js and backend/db.js. Team.js only shapes the `Team` record.
- RequestDetails.jsx, CreateRequest.jsx, App.jsx, and all rendering and styling.

=== FILE: auth_controller.dfy ===
/** Registration and login (backend/controllers/auth.controller.js). The password hash,
    the hash check and token signing are parameters: `hash` stands for bcrypt's salted
    hash, `matches` for bcrypt's compare, `sign` for issuing the token over id and role. */
module AuthController {
  import opened Common
  import opened Records
  import opened Http

  /** A signed token and the public view of the user it was issued for. */
  datatype Session = Session(token: string, user: UserView)

  const DefaultRole := "technician"

  /** `register`. Name, email and password are required, the email must be new, the
      password is stored only as its hash, and the role defaults to technician.
      `newId` is the id the database assigns. */
  function Register(s: Store, newId: Id, name: string, email: string, password: string, role: string,
                    hash: string -> Digest, sign: (Id, string) -> string): (r: Reply<Session>)
    requires newId !in s.users
    ensures name == "" || email == "" || password == "" ==>
      r == Reply(Refused(BAD_REQUEST, "All fields are required"), s)
    ensures name != "" && email != "" && password != "" &&
            (exists id :: id in s.users && s.users[id].email == email) ==>
      r == Reply(Refused(CONFLICT, "User already exists"), s)
    ensures r.response.Done? <==>
      name != "" && email != "" && password != "" && forall id :: id in s.users ==> s.users[id].email != email
    ensures r.response.Done? ==>
      newId in r.store.users &&
      var u := r.store.users[newId];
      && r.response.code == CREATED
      && r.store == s.(users := s.users[newId := u])
      && u.name == name && u.email == email
      && u.password == hash(password)
      && u.role == (if role == "" then DefaultRole else role)
      && r.response.value.user == ViewOf(newId, u)
      && r.response.value.token == sign(newId, u.role)
    ensures EmailsUnique(s.users) ==> EmailsUnique(r.store.users)
  {
    if name == "" || email == "" || password == "" then
      Reply(Refused(BAD_REQUEST, "All fields are required"), s)
    else if exists id :: id in s.users && s.users[id].email == email then
      Reply(Refused(CONFLICT, "User already exists"), s)
    else
      var u := User(name, email, hash(password), if role == "" then DefaultRole else role);
      Reply(Done(CREATED, Session(sign(newId, u.role), ViewOf(newId, u))), s.(users := s.users[newId := u]))
  }

  /** The user registered under `email`, if any; unique because emails are. */
  function FindByEmail(users: map<Id, User>, email: string): (r: Option<Id>)
    requires EmailsUnique(users)
    ensures r.None? <==> forall id :: id in users ==> users[id].email != email
    ensures r.Some? ==> r.value in users && users[r.value].email == email
  {
    if exists id :: id in users && users[id].email == email then
      var id :| id in users && users[id].email == email;
      Some(id)
    else
      None
  }

  const InvalidCredentials := "Invalid credentials"

  /** `login`. An unknown email and a wrong password get the same answer. The lookup by
      email is meaningful because `Register` keeps emails unique. */
  function Login(s: Store, email: string, password: string,
                 matches: (string, Digest) -> bool, sign: (Id, string) -> string): (r: Response<Session>)
    requires EmailsUnique(s.users)
    ensures email == "" || password == "" ==> r == Refused(BAD_REQUEST, "Email and password are required")
    ensures r.Done? <==>
      && email != "" && password != ""
      && exists id :: id in s.users && s.users[id].email == email && matches(password, s.users[id].password)
    ensures email != "" && password != "" && !r.Done? ==> r == Refused(UNAUTHORIZED, InvalidCredentials)
    ensures r.Done? ==>
      && r.code == OK
      && r.value.user.id in s.users
      && r.value.user == ViewOf(r.value.user.id, s.users[r.value.user.id])
      && r.value.user.email == email
      && r.value.token == sign(r.value.user.id, r.value.user.role)
  {
    if email == "" || password == "" then
      Refused(BAD_REQUEST, "Email and password are required")
    else
      match FindByEmail(s.users, email)
      case None => Refused(UNAUTHORIZED, InvalidCredentials)
      case Some(id) =>
        var u := s.users[id];
        if !matches(password, u.password) then Refused(UNAUTHORIZED, InvalidCredentials)
        else Done(OK, Session(sign(id, u.role), ViewOf(id, u)))
  }

  /** Login does not reveal which check failed: an unknown email and a known email with a
      wrong password are answered identically. */
  lemma LoginFailuresIndistinguishable(s1: Store, s2: Store, email: string, password: string,
                                       matches: (string, Digest) -> bool, sign: (Id, string) -> string)
    requires EmailsUnique(s1.users) && EmailsUnique(s2.users)
    requires email != "" && password != ""
    requires forall id :: id in s1.users ==> s1.users[id].email != email
    requires exists id :: id in s2.users && s2.users[id].email == email && !matches(password, s2.users[id].password)
    ensures Login(s1, email, password, matches, sign) == Login(s2, email, password, matches, sign)
    ensures Login(s1, email, password, matches, sign) == Refused(UNAUTHORIZED, InvalidCredentials)
  {
    var id :| id in s2.users && s2.users[id].email == email && !matches(password, s2.users[id].password);
    assert FindByEmail(s2.users, email) == Some(id);
  }

  /** Whoever registers can log straight in with the same password, provided the hash
      check accepts a password against its own hash. The login answers with the same user
      view and a token signed at login time over the same id and role: `signAtRegister` and
      `signAtLogin` are token issuing at two instants, which need not give the same token. */
  lemma RegisterThenLogin(s: Store, newId: Id, name: string, email: string, password: string, role: string,
                          hash: string -> Digest, matches: (string, Digest) -> bool,
                          signAtRegister: (Id, string) -> string, signAtLogin: (Id, string) -> string)
    requires newId !in s.users && EmailsUnique(s.users)
    requires matches(password, hash(password))
    requires Register(s, newId, name, email, password, role, hash, signAtRegister).response.Done?
    ensures var reg := Register(s, newId, name, email, password, role, hash, signAtRegister);
      var view := reg.response.value.user;
      && EmailsUnique(reg.store.users)
      && Login(reg.store, email, password, matches, signAtLogin) == Done(OK, Session(signAtLogin(newId, view.role), view))
  {
    var t := Register(s, newId, name, email, password, role, hash, signAtRegister).store;
    assert FindByEmail(t.users, email) == Some(newId);
  }
}

=== FILE: auth_middleware.dfy ===
/** The `protect` middleware (backend/middlewares/auth.js): it reads a bearer token from the
    Authorization header, verifies it, and lets the request through only for a user that
    still exists. Token verification (signature and expiry) is the parameter `verify`,
    which yields the user id the token was issued for, or nothing when it is rejected. */
module AuthMiddleware {
  import opened Common
  import opened Records
  import opened Http
  import AuthController

  /** JavaScript's `String.prototype.split` with a one-character separator: the pieces
      between separators, empty ones included, so there is always at least one. */
  function Split(s: string, sep: char): (parts: seq<string>)
    ensures |parts| >= 1
    ensures forall i :: 0 <= i < |parts| ==> sep !in parts[i]
    decreases |s|
  {
    if |s| == 0 then [""]
    else
      var rest := Split(s[1..], sep);
      if s[0] == sep then [""] + rest
      else [[s[0]] + rest[0]] + rest[1..]
  }

  /** The pieces glued back together with the separator between them. */
  function Join(parts: seq<string>, sep: char): string
    requires |parts| >= 1
    decreases |parts|
  {
    if |parts| == 1 then parts[0] else parts[0] + [sep] + Join(parts[1..], sep)
  }

  /** Splitting loses nothing: joining the pieces gives the string back. */
  lemma {:induction false} JoinSplit(s: string, sep: char)
    ensures Join(Split(s, sep), sep) == s
    decreases |s|
  {
    if |s| > 0 {
      var rest := Split(s[1..], sep);
      JoinSplit(s[1..], sep);
      if s[0] == sep {
        assert Split(s, sep)[1..] == rest;
      } else if |rest| > 1 {
        var parts := Split(s, sep);
        assert parts[1..] == rest[1..];
        assert Join(rest, sep) == rest[0] + [sep] + Join(rest[1..], sep);
        assert Join(parts, sep) == [s[0]] + rest[0] + [sep] + Join(rest[1..], sep);
      }
    }
  }

  /** A string without the separator is one piece. */
  lemma {:induction false} SplitNoSeparator(s: string, sep: char)
    requires sep !in s
    ensures Split(s, sep) == [s]
    decreases |s|
  {
    if |s| > 0 {
      SplitNoSeparator(s[1..], sep);
      assert [s[0]] + s[1..] == s;
    }
  }

  /** A separator-free prefix followed by the separator is the first piece. */
  lemma {:induction false} SplitAfterFirst(a: string, sep: char, b: string)
    requires sep !in a
    ensures Split(a + [sep] + b, sep) == [a] + Split(b, sep)
    decreases |a|
  {
    var s := a + [sep] + b;
    if |a| == 0 {
      assert s[1..] == b;
    } else {
      assert s[1..] == a[1..] + [sep] + b;
      SplitAfterFirst(a[1..], sep, b);
      assert [a[0]] + a[1..] == a;
    }
  }

  const Scheme := "Bearer"

  /** The token `protect` reads from the header: the header must be present and start with
      `Bearer`, and the token is the second space-separated piece. `None` is every falsy
      outcome: no header, another scheme, no second piece, or an empty one. */
  function TokenOf(header: Option<string>): (t: Option<string>)
    ensures t.Some? <==>
      header.Some? && Scheme <= header.value &&
      |Split(header.value, ' ')| >= 2 && Split(header.value, ' ')[1] != ""
    ensures t.Some? ==> t.value == Split(header.value, ' ')[1] && t.value != "" && ' ' !in t.value
  {
    if header.None? || !(Scheme <= header.value) then None
    else
      var parts := Split(header.value, ' ');
      if |parts| < 2 || parts[1] == "" then None else Some(parts[1])
  }

  /** A header written the way a client is meant to write it gives back its token. */
  lemma TokenOfWellFormedHeader(token: string)
    requires token != "" && ' ' !in token
    ensures TokenOf(Some(Scheme + " " + token)) == Some(token)
  {
    SplitAfterFirst(Scheme, ' ', token);
    SplitNoSeparator(token, ' ');
    assert Scheme + " " + token == Scheme + [' '] + token;
    assert Scheme <= Scheme + " " + token;
  }

  /** The bare scheme carries no token: there is no second piece. */
  lemma BareSchemeHasNoToken()
    ensures TokenOf(Some("Bearer")) == None
  {
    SplitNoSeparator("Bearer", ' ');
  }

  /** The scheme glued to more text, with no space, carries no token either. */
  lemma GluedSchemeHasNoToken()
    ensures TokenOf(Some("BearerX")) == None
  {
    SplitNoSeparator("BearerX", ' ');
  }

  /** A double space leaves an empty second piece, which counts as no token. */
  lemma DoubleSpaceHasNoToken()
    ensures TokenOf(Some("Bearer  x")) == None
  {
    var h := "Bearer  x";
    assert h == "Bearer" + [' '] + " x";
    SplitAfterFirst("Bearer", ' ', " x");
    assert " x" == "" + [' '] + "x";
    SplitAfterFirst("", ' ', "x");
    assert Split(h, ' ')[1] == "";
  }

  /** Any space-free word that starts with the scheme, then a space and a space-free token,
      gives back the token: only the prefix of the first word is checked. */
  lemma TokenAfterSchemePrefix(word: string, token: string)
    requires Scheme <= word && ' ' !in word
    requires token != "" && ' ' !in token
    ensures TokenOf(Some(word + [' '] + token)) == Some(token)
  {
    var h := word + [' '] + token;
    SplitAfterFirst(word, ' ', token);
    SplitNoSeparator(token, ' ');
    assert Split(h, ' ') == [word, token];
    assert h[..|Scheme|] == word[..|Scheme|];
  }

  /** So a longer scheme name such as "BearerX" still yields its second piece. */
  lemma LongerSchemeStillYieldsToken()
    ensures TokenOf(Some("BearerX abc")) == Some("abc")
  {
    assert "BearerX abc" == "BearerX" + [' '] + "abc";
    assert Scheme <= "BearerX";
    TokenAfterSchemePrefix("BearerX", "abc");
  }

  /** What `protect` decides: call `next` with the user, or answer with an error. */
  datatype Verdict = Next(user: UserView) | Reject(code: nat, message: string)

  const TokenMissing := "Not authorized, token missing"
  const InvalidToken := "Not authorized, invalid token"
  const UserGone := "User no longer exists"

  /** `protect`. `next` is reached only with a token that verifies and names a user still
      in the store; every rejection is a 401. */
  function Protect(s: Store, header: Option<string>, verify: string -> Option<Id>): (v: Verdict)
    ensures TokenOf(header).None? ==> v == Reject(UNAUTHORIZED, TokenMissing)
    ensures TokenOf(header).Some? && verify(TokenOf(header).value).None? ==>
      v == Reject(UNAUTHORIZED, InvalidToken)
    ensures TokenOf(header).Some? && verify(TokenOf(header).value).Some? &&
            verify(TokenOf(header).value).value !in s.users ==>
      v == Reject(UNAUTHORIZED, UserGone)
    ensures v.Next? <==>
      TokenOf(header).Some? && verify(TokenOf(header).value).Some? && verify(TokenOf(header).value).value in s.users
    ensures v.Next? ==>
      var id := verify(TokenOf(header).value).value;
      v.user == ViewOf(id, s.users[id])
    ensures v.Reject? ==> v.code == UNAUTHORIZED
  {
    match TokenOf(header)
    case None => Reject(UNAUTHORIZED, TokenMissing)
    case Some(token) =>
      match verify(token)
      case None => Reject(UNAUTHORIZED, InvalidToken)
      case Some(id) =>
        if id !in s.users then Reject(UNAUTHORIZED, UserGone)
        else Next(ViewOf(id, s.users[id]))
  }

  /** The token `register` hands out gets its holder through `protect`, sent the way a
      client is meant to send it, provided the token verifies to the id it was signed for
      and, like a JWT, has no space in it. */
  lemma RegisteredTokenPasses(s: Store, newId: Id, name: string, email: string, password: string,
                              role: string, hash: string -> Digest, sign: (Id, string) -> string,
                              verify: string -> Option<Id>)
    requires newId !in s.users
    requires AuthController.Register(s, newId, name, email, password, role, hash, sign).response.Done?
    requires var token := AuthController.Register(s, newId, name, email, password, role, hash, sign).response.value.token;
      token != "" && ' ' !in token && verify(token) == Some(newId)
    ensures var reg := AuthController.Register(s, newId, name, email, password, role, hash, sign);
      Protect(reg.store, Some(Scheme + " " + reg.response.value.token), verify) == Next(reg.response.value.user)
  {
    var reg := AuthController.Register(s, newId, name, email, password, role, hash, sign);
    TokenOfWellFormedHeader(reg.response.value.token);
  }
}

=== FILE: client_view.dfy ===
/** A request as the pages receive it from GET /requests: JSON, so its status is a plain
    string compared by spelling. */
module ClientView {
  import opened Common
  import opened Records

  datatype Card = Card(id: Id, subject: string, status: string)

  /** The card the API sends for a stored request. */
  function CardOf(id: Id, r: Request): (c: Card)
    ensures c.id == id && c.subject == r.subject
    ensures ParseStatus(c.status) == Some(r.status)
  {
    ParseStatusName(r.status);
    Card(id, r.subject, StatusName(r.status))
  }
}

=== FILE: common.dfy ===
/** Small value types and sequence helpers shared by the back end and the pages. */
module Common {

  /** A value that may be absent: JavaScript's `undefined`/`null` versus a value. */
  datatype Option<+T> = None | Some(value: T) {

    /** The value, or `default` when absent (JavaScript's `x || default` on a non-falsy x). */
    function GetOr(default: T): T {
      match this
      case Some(v) => v
      case None => default
    }
  }

  /** The elements of `s` that satisfy `p`, in their original order
      (JavaScript's `Array.prototype.filter`). */
  function Filter<T>(s: seq<T>, p: T -> bool): (r: seq<T>)
    ensures |r| <= |s|
    ensures forall i :: 0 <= i < |r| ==> r[i] in s && p(r[i])
    ensures forall i :: 0 <= i < |s| && p(s[i]) ==> s[i] in r
  {
    if |s| == 0 then []
    else if p(s[0]) then [s[0]] + Filter(s[1..], p)
    else Filter(s[1..], p)
  }

  /** `a` is obtained from `b` by deleting elements and keeping the rest in order. */
  predicate IsSubsequence<T(==)>(a: seq<T>, b: seq<T>)
    decreases |b|
  {
    if |a| == 0 then true
    else if |b| == 0 then false
    else if a[0] == b[0] then IsSubsequence(a[1..], b[1..])
    else IsSubsequence(a, b[1..])
  }

  /** A filter keeps its survivors in their original order. */
  lemma {:induction false} FilterIsSubsequence<T>(s: seq<T>, p: T -> bool)
    ensures IsSubsequence(Filter(s, p), s)
  {
    if |s| > 0 {
      FilterIsSubsequence(s[1..], p);
    }
  }

  /** Filtering with a predicate every element satisfies changes nothing. */
  lemma {:induction false} FilterKeepsAll<T>(s: seq<T>, p: T -> bool)
    requires forall i :: 0 <= i < |s| ==> p(s[i])
    ensures Filter(s, p) == s
  {
    if |s| > 0 {
      FilterKeepsAll(s[1..], p);
    }
  }

  /** Filtering distributes over concatenation. */
  lemma {:induction false} FilterAppend<T>(a: seq<T>, b: seq<T>, p: T -> bool)
    ensures Filter(a + b, p) == Filter(a, p) + Filter(b, p)
  {
    if |a| > 0 {
      assert (a + b)[1..] == a[1..] + b;
      FilterAppend(a[1..], b, p);
    } else {
      assert a + b == b;
    }
  }

  /** A weaker predicate keeps at least as many elements. */
  lemma {:induction false} FilterCountMonotone<T>(s: seq<T>, p: T -> bool, q: T -> bool)
    requires forall i :: 0 <= i < |s| && p(s[i]) ==> q(s[i])
    ensures |Filter(s, p)| <= |Filter(s, q)|
  {
    if |s| > 0 {
      FilterCountMonotone(s[1..], p, q);
    }
  }

  /** A subset is no larger than its superset. */
  lemma {:induction false} SubsetCardinality<T>(a: set<T>, b: set<T>)
    requires a <= b
    ensures |a| <= |b|
  {
    if a != {} {
      var x :| x in a;
      SubsetCardinality(a - {x}, b - {x});
    }
  }

  /** `t` occurs as a contiguous piece of `s` (JavaScript's `String.prototype.includes`). */
  predicate Contains(s: string, t: string)
    decreases |s|
  {
    t <= s || (|s| > 0 && Contains(s[1..], t))
  }
}

=== FILE: dashboard.dfy ===
/** The derived figures of frontend/src/pages/Dashboard.jsx: the four counters computed in
    `load` and the subject search behind `filteredRequests`. Lower-casing is the parameter
    `lower`. */
module Dashboard {
  import opened Common
  import opened Records
  import ClientView
  import EquipmentController

  type Card = ClientView.Card

  datatype Stats = Stats(critical: nat, utilization: nat, open: nat, overdue: nat)

  /** A request the dashboard calls open: neither Repaired nor Scrap. */
  predicate IsOpenCard(c: Card) {
    c.status != "Repaired" && c.status != "Scrap"
  }

  /** A request the dashboard calls overdue: still New. */
  predicate IsOverdueCard(c: Card) {
    c.status == "New"
  }

  /** The counters `load` sets. Every overdue request is open, critical repeats open, and
      utilization is ten points per open request, capped at 100. */
  function LoadStats(requests: seq<Card>): (st: Stats)
    ensures st.open == |Filter(requests, IsOpenCard)| <= |requests|
    ensures st.overdue == |Filter(requests, IsOverdueCard)|
    ensures st.overdue <= st.open
    ensures st.critical == st.open
    ensures 0 <= st.utilization <= 100
    ensures st.open < 10 ==> st.utilization == st.open * 10
    ensures st.open >= 10 ==> st.utilization == 100
  {
    var open := |Filter(requests, IsOpenCard)|;
    var overdue := |Filter(requests, IsOverdueCard)|;
    FilterCountMonotone(requests, IsOverdueCard, IsOpenCard);
    Stats(open, if open * 10 < 100 then open * 10 else 100, open, overdue)
  }

  /** On statuses the schema allows, the dashboard's "open" is the back end's: New or
      In Progress. */
  lemma OpenAgreesWithBackend(id: Id, r: Request)
    ensures IsOpenCard(ClientView.CardOf(id, r)) <==> EquipmentController.IsOpen(r.status)
  {
  }

  /** The search filter: the requests whose lower-cased subject contains the lower-cased
      search text, in the order they arrived. */
  function FilteredRequests(requests: seq<Card>, search: string, lower: string -> string): (r: seq<Card>)
    ensures IsSubsequence(r, requests)
    ensures forall i :: 0 <= i < |r| ==> Contains(lower(r[i].subject), lower(search))
    ensures forall i :: 0 <= i < |requests| && Contains(lower(requests[i].subject), lower(search)) ==>
      requests[i] in r
  {
    var p := (c: Card) => Contains(lower(c.subject), lower(search));
    FilterIsSubsequence(requests, p);
    Filter(requests, p)
  }

  /** An empty search keeps every request, given that lower-casing maps "" to "". */
  lemma EmptySearchKeepsAll(requests: seq<Card>, lower: string -> string)
    requires lower("") == ""
    ensures FilteredRequests(requests, "", lower) == requests
  {
    var p := (c: Card) => Contains(lower(c.subject), lower(""));
    forall i | 0 <= i < |requests|
      ensures p(requests[i])
    {
      assert "" <= lower(requests[i].subject);
    }
    FilterKeepsAll(requests, p);
  }
}

=== FILE: equipment_controller.dfy ===
/** The equipment handlers of backend/controllers/equipment.controller.js: create with
    serial-number uniqueness, read with the open-request count, scrap with its cascade to
    the equipment's requests, list the equipment's requests, delete. */
module EquipmentController {
  import opened Common
  import opened Records
  import opened Http

  /** `createEquipment`. Name, serial number, department and location are required, and the
      serial number must not be registered yet. `newId` is the id the database assigns. */
  function CreateEquipment(s: Store, newId: Id, name: string, serialNumber: string,
                           department: string, location: string, assignedTeam: Option<Id>): (r: Reply<Equipment>)
    requires newId !in s.equipment
    ensures name == "" || serialNumber == "" || department == "" || location == "" ==>
      r == Reply(Refused(BAD_REQUEST, "All required fields must be provided"), s)
    ensures r.response.Done? <==>
      && name != "" && serialNumber != "" && department != "" && location != ""
      && (forall id :: id in s.equipment ==> s.equipment[id].serialNumber != serialNumber)
    ensures r.response.Refused? && r.response.code == CONFLICT <==>
      && name != "" && serialNumber != "" && department != "" && location != ""
      && (exists id :: id in s.equipment && s.equipment[id].serialNumber == serialNumber)
    ensures !r.response.Done? ==> r.store == s
    ensures r.response.Done? ==>
      var e := r.response.value;
      && r.response.code == CREATED
      && r.store == s.(equipment := s.equipment[newId := e])
      && e.name == name && e.serialNumber == serialNumber && e.department == department
      && e.location == location && e.team == assignedTeam
      && !e.isScrapped
    ensures SerialsUnique(s.equipment) ==> SerialsUnique(r.store.equipment)
  {
    if name == "" || serialNumber == "" || department == "" || location == "" then
      Reply(Refused(BAD_REQUEST, "All required fields must be provided"), s)
    else if exists id :: id in s.equipment && s.equipment[id].serialNumber == serialNumber then
      Reply(Refused(CONFLICT, "Equipment with this serial number already exists"), s)
    else
      var e := NewEquipment(name, serialNumber, department, location, assignedTeam);
      Reply(Done(CREATED, e), s.(equipment := s.equipment[newId := e]))
  }

  /** The statuses the open-request count looks for. */
  predicate IsOpen(st: Status) {
    st == New || st == InProgress
  }

  /** The ids of the requests filed against `equipmentId` that are still open. */
  function OpenRequestIds(s: Store, equipmentId: Id): set<Id> {
    set id | id in s.requests && s.requests[id].equipment == equipmentId && IsOpen(s.requests[id].status)
  }

  /** The count `getEquipmentById` reports next to the equipment. */
  function OpenRequestsCount(s: Store, equipmentId: Id): nat {
    |OpenRequestIds(s, equipmentId)|
  }

  /** The equipment document together with its derived open-request count. */
  datatype EquipmentDetail = EquipmentDetail(equipment: Equipment, openRequestsCount: nat)

  /** `getEquipmentById`. The count is derived on every read, never stored: it is at most
      the number of requests filed against the equipment, and exactly the number whose
      status is New or In Progress. */
  function GetEquipmentById(s: Store, id: Id): (r: Response<EquipmentDetail>)
    ensures id !in s.equipment ==> r == Refused(NOT_FOUND, "Equipment not found")
    ensures id in s.equipment ==>
      && r.Done? && r.code == OK && r.value.equipment == s.equipment[id]
      && r.value.openRequestsCount == |OpenRequestIds(s, id)|
      && r.value.openRequestsCount <= |FiledRequestIds(s, id)|
  {
    if id !in s.equipment then
      Refused(NOT_FOUND, "Equipment not found")
    else
      OpenCountAtMostFiled(s, id);
      Done(OK, EquipmentDetail(s.equipment[id], OpenRequestsCount(s, id)))
  }

  /** The ids of every request filed against `equipmentId`, whatever its status. */
  function FiledRequestIds(s: Store, equipmentId: Id): set<Id> {
    set id | id in s.requests && s.requests[id].equipment == equipmentId
  }

  lemma OpenCountAtMostFiled(s: Store, id: Id)
    ensures OpenRequestsCount(s, id) <= |FiledRequestIds(s, id)|
  {
    SubsetCardinality(OpenRequestIds(s, id), FiledRequestIds(s, id));
  }

  /** The cascade half of the scrap: every request filed against `equipmentId` gets status
      Scrap whatever its status was; other requests are untouched. */
  function ScrapRequests(requests: map<Id, Request>, equipmentId: Id): (r: map<Id, Request>)
    ensures r.Keys == requests.Keys
    ensures forall k :: k in requests && requests[k].equipment == equipmentId ==>
      r[k] == requests[k].(status := Scrap)
    ensures forall k :: k in requests && requests[k].equipment != equipmentId ==> r[k] == requests[k]
  {
    map k | k in requests ::
      if requests[k].equipment == equipmentId then requests[k].(status := Scrap) else requests[k]
  }

  /** `scrapEquipment`, taken as one atomic step: the flag is set and the cascade applied.
      Unknown equipment is a 404 and changes nothing. */
  function ScrapEquipment(s: Store, id: Id): (r: Reply<()>)
    ensures id !in s.equipment ==> r == Reply(Refused(NOT_FOUND, "Equipment not found"), s)
    ensures id in s.equipment ==>
      && r.response == Done(OK, ())
      && r.store.equipment == s.equipment[id := s.equipment[id].(isScrapped := true)]
      && r.store.requests == ScrapRequests(s.requests, id)
      && r.store.users == s.users && r.store.teams == s.teams
  {
    if id !in s.equipment then
      Reply(Refused(NOT_FOUND, "Equipment not found"), s)
    else
      var e := s.equipment[id].(isScrapped := true);
      Reply(Done(OK, ()), s.(equipment := s.equipment[id := e], requests := ScrapRequests(s.requests, id)))
  }

  /** Scrapping twice leaves the same store, and the same answer, as scrapping once. */
  lemma ScrapIdempotent(s: Store, id: Id)
    ensures var once := ScrapEquipment(s, id);
      ScrapEquipment(once.store, id) == once
  {
    var once := ScrapEquipment(s, id);
    if id in s.equipment {
      var t := once.store;
      var twice := ScrapEquipment(t, id);
      assert twice.store.requests == t.requests by {
        forall k | k in t.requests
          ensures twice.store.requests[k] == t.requests[k]
        {
        }
      }
      assert twice.store.equipment == t.equipment;
    }
  }

  /** After a scrap the equipment has no open request left. */
  lemma ScrapClosesAllRequests(s: Store, id: Id)
    requires id in s.equipment
    ensures OpenRequestsCount(ScrapEquipment(s, id).store, id) == 0
  {
    var t := ScrapEquipment(s, id).store;
    assert OpenRequestIds(t, id) == {} by {
      forall k | k in t.requests && t.requests[k].equipment == id
        ensures !IsOpen(t.requests[k].status)
      {
      }
    }
  }

  /** A scrap leaves the open counts of every other piece of equipment as they were. */
  lemma ScrapKeepsOtherCounts(s: Store, id: Id, other: Id)
    requires other != id
    ensures OpenRequestsCount(ScrapEquipment(s, id).store, other) == OpenRequestsCount(s, other)
  {
    var t := ScrapEquipment(s, id).store;
    if id in s.equipment {
      assert OpenRequestIds(t, other) == OpenRequestIds(s, other);
    }
  }

  /** `getEquipmentRequests`: exactly the requests filed against `id`. It does not check that
      the equipment exists, so an unknown id gives an empty answer, not a 404. */
  function GetEquipmentRequests(s: Store, id: Id): (r: Response<map<Id, Request>>)
    ensures r.Done? && r.code == OK
    ensures forall k :: k in r.value <==> k in s.requests && s.requests[k].equipment == id
    ensures forall k :: k in r.value ==> r.value[k] == s.requests[k]
  {
    Done(OK, map k | k in s.requests && s.requests[k].equipment == id :: s.requests[k])
  }

  /** `deleteEquipment`: only the equipment record goes; its requests stay, still naming it. */
  function DeleteEquipment(s: Store, id: Id): (r: Reply<()>)
    ensures id !in s.equipment ==> r == Reply(Refused(NOT_FOUND, "Equipment not found"), s)
    ensures id in s.equipment ==>
      && r.response == Done(OK, ())
      && r.store.equipment.Keys == s.equipment.Keys - {id}
      && (forall k :: k in r.store.equipment ==> r.store.equipment[k] == s.equipment[k])
      && r.store.requests == s.requests
      && r.store.users == s.users && r.store.teams == s.teams
    ensures SerialsUnique(s.equipment) ==> SerialsUnique(r.store.equipment)
  {
    if id !in s.equipment then
      Reply(Refused(NOT_FOUND, "Equipment not found"), s)
    else
      Reply(Done(OK, ()), s.(equipment := s.equipment - {id}))
  }

  /** Deleting equipment right after creating it gives back the store as it was. */
  lemma DeleteUndoesCreate(s: Store, newId: Id, name: string, serialNumber: string,
                           department: string, location: string, assignedTeam: Option<Id>)
    requires newId !in s.equipment
    requires CreateEquipment(s, newId, name, serialNumber, department, location, assignedTeam).response.Done?
    ensures var created := CreateEquipment(s, newId, name, serialNumber, department, location, assignedTeam).store;
      DeleteEquipment(created, newId) == Reply(Done(OK, ()), s)
  {
    var created := CreateEquipment(s, newId, name, serialNumber, department, location, assignedTeam).store;
    assert created.equipment - {newId} == s.equipment;
  }

  /** The request list of `getEquipmentRequests` is exactly the set the open count ranges
      over, so the count `getEquipmentById` reports never exceeds the list's length. */
  lemma RequestListBoundsOpenCount(s: Store, id: Id)
    ensures GetEquipmentRequests(s, id).value.Keys == FiledRequestIds(s, id)
    ensures id in s.equipment ==>
      GetEquipmentById(s, id).value.openRequestsCount <= |GetEquipmentRequests(s, id).value|
  {
    var listed := GetEquipmentRequests(s, id).value;
    assert listed.Keys == FiledRequestIds(s, id);
    assert |listed| == |listed.Keys|;
  }
}

=== FILE: http.dfy ===
/** What a handler answers: the HTTP status code with the returned entity or the
    error message, paired with the store the handler leaves behind. */
module Http {
  import opened Records

  const OK: nat := 200
  const CREATED: nat := 201
  const BAD_REQUEST: nat := 400
  const UNAUTHORIZED: nat := 401
  const NOT_FOUND: nat := 404
  const CONFLICT: nat := 409
  const SERVER_ERROR: nat := 500

  /** `Done` is a success with its entity, `Refused` an error status with its message,
      and `NoResponse` a handler that throws without answering the client. */
  datatype Response<+T> =
    | Done(code: nat, value: T)
    | Refused(code: nat, message: string)
    | NoResponse

  /** A handler's answer and the store after it. */
  datatype Reply<+T> = Reply(response: Response<T>, store: Store)
}

=== FILE: kanban.dfy ===
/** The board of frontend/src/pages/Kanban.jsx: one column per stage, each holding the
    requests whose status is that stage, and three buttons that PATCH a fixed status
    through the router's status handler. */
module Kanban {
  import opened Common
  import opened Records
  import Http
  import ClientView
  import RequestRouter

  type Card = ClientView.Card

  /** The column headings, in display order. */
  const Stages: seq<string> := ["New", "In Progress", "Repaired", "Scrap"]

  /** The headings are the schema's statuses, spelled as the API sends them, in schema order. */
  lemma StagesAreSchemaStatuses()
    ensures |Stages| == |AllStatuses|
    ensures forall k :: 0 <= k < |Stages| ==> Stages[k] == StatusName(AllStatuses[k])
  {
  }

  function InStage(stage: string): Card -> bool {
    (c: Card) => c.status == stage
  }

  datatype Column = Column(stage: string, cards: seq<Card>)

  /** The columns as rendered: stage by stage, each the requests of that status in the order
      they were fetched. */
  function Columns(requests: seq<Card>): (cols: seq<Column>)
    ensures |cols| == |Stages|
    ensures forall k :: 0 <= k < |cols| ==> cols[k].stage == Stages[k]
    ensures forall k :: 0 <= k < |cols| ==> cols[k].cards == Filter(requests, InStage(Stages[k]))
    ensures forall k :: 0 <= k < |cols| ==> IsSubsequence(cols[k].cards, requests)
    ensures forall k, c :: 0 <= k < |cols| && c in cols[k].cards ==> c.status == Stages[k]
    ensures forall k, i :: 0 <= k < |cols| && 0 <= i < |requests| && requests[i].status == Stages[k] ==>
      requests[i] in cols[k].cards
  {
    var cols := seq(|Stages|, k requires 0 <= k < |Stages| => Column(Stages[k], Filter(requests, InStage(Stages[k]))));
    forall k | 0 <= k < |Stages|
      ensures IsSubsequence(cols[k].cards, requests)
    {
      FilterIsSubsequence(requests, InStage(Stages[k]));
    }
    cols
  }

  /** A request whose status is one of the stages sits in exactly that stage's column. */
  lemma ExactlyOneColumn(requests: seq<Card>, i: nat)
    requires i < |requests| && requests[i].status in Stages
    ensures var cols := Columns(requests);
      exists k :: 0 <= k < |cols| && requests[i] in cols[k].cards &&
        forall j :: 0 <= j < |cols| && requests[i] in cols[j].cards ==> j == k
  {
    var cols := Columns(requests);
    var c := requests[i];
    var k := StageIndex(c.status);
    assert c in cols[k].cards;
    forall j | 0 <= j < |cols| && c in cols[j].cards
      ensures j == k
    {
      assert Stages[j] == c.status;
    }
  }

  /** The position of a stage heading among the columns. */
  function StageIndex(stage: string): (k: nat)
    requires stage in Stages
    ensures k < |Stages| && Stages[k] == stage
  {
    if stage == Stages[0] then 0
    else if stage == Stages[1] then 1
    else if stage == Stages[2] then 2
    else 3
  }

  /** A request with any other status appears in no column. */
  lemma NoColumnForOtherStatus(requests: seq<Card>, i: nat)
    requires i < |requests| && requests[i].status !in Stages
    ensures var cols := Columns(requests);
      forall k :: 0 <= k < |cols| ==> requests[i] !in cols[k].cards
  {
    var cols := Columns(requests);
    forall k | 0 <= k < |cols|
      ensures requests[i] !in cols[k].cards
    {
      assert requests[i].status != Stages[k];
    }
  }

  predicate InSomeStage(c: Card) {
    c.status in Stages
  }

  /** The columns partition the requests that have a stage status: their sizes add up to
      the number of such requests. */
  lemma ColumnsPartition(requests: seq<Card>)
    ensures var cols := Columns(requests);
      |cols[0].cards| + |cols[1].cards| + |cols[2].cards| + |cols[3].cards| == |Filter(requests, InSomeStage)|
  {
    StageFiltersPartition(requests);
  }

  lemma {:induction false} StageFiltersPartition(requests: seq<Card>)
    ensures |Filter(requests, InStage(Stages[0]))| + |Filter(requests, InStage(Stages[1]))|
          + |Filter(requests, InStage(Stages[2]))| + |Filter(requests, InStage(Stages[3]))|
         == |Filter(requests, InSomeStage)|
  {
    if |requests| > 0 {
      StageFiltersPartition(requests[1..]);
    }
  }

  /** The three buttons on every card. */
  datatype Button = StartButton | DoneButton | ScrapButton

  /** The status each button sends. */
  function ButtonStatus(b: Button): string {
    match b
    case StartButton => "In Progress"
    case DoneButton => "Repaired"
    case ScrapButton => "Scrap"
  }

  /** Pressing a button sends only the status: the router records it and answers, since
      every button's status is one the schema accepts, and leaves the hours untouched. */
  function Press(s: Store, id: Id, b: Button): (r: Http.Reply<Request>)
    requires id in s.requests
    ensures r.response.Done?
    ensures b == StartButton ==> r.response.value.status == InProgress
    ensures b == DoneButton ==> r.response.value.status == Repaired
    ensures b == ScrapButton ==> r.response.value.status == Scrap
    ensures r.response.value.hoursSpent == s.requests[id].hoursSpent
    ensures id in r.store.requests && r.store.requests[id] == r.response.value
  {
    RequestRouter.PatchStatus(s, id, ButtonStatus(b), None)
  }
}

=== FILE: records.dfy ===
/** The stored documents (backend/models/Request.js, backend/models/Equipment.js,
    backend/models/Team.js and the user record the auth controller writes) and the
    in-memory store that stands for the database: one map, id to record, per collection. */
module Records {
  import opened Common

  /** A document id, as the hex string the API passes around. */
  type Id = string

  /** An instant, as the database stores a `Date`. */
  type Date = int

  /** The two request types of the Request.js enum. */
  datatype RequestType = Corrective | Preventive

  /** The four request statuses of the Request.js enum. */
  datatype Status = New | InProgress | Repaired | Scrap

  /** The statuses in the order the schema lists them. */
  const AllStatuses: seq<Status> := [New, InProgress, Repaired, Scrap]

  function TypeName(t: RequestType): string {
    match t
    case Corrective => "Corrective"
    case Preventive => "Preventive"
  }

  /** The schema's enum check on `type`: only the two listed spellings are accepted. */
  function ParseType(s: string): (r: Option<RequestType>)
    ensures r.Some? <==> s == "Corrective" || s == "Preventive"
    ensures r.Some? ==> TypeName(r.value) == s
  {
    if s == "Corrective" then Some(Corrective)
    else if s == "Preventive" then Some(Preventive)
    else None
  }

  lemma ParseTypeName(t: RequestType)
    ensures ParseType(TypeName(t)) == Some(t)
  {
  }

  function StatusName(st: Status): string {
    match st
    case New => "New"
    case InProgress => "In Progress"
    case Repaired => "Repaired"
    case Scrap => "Scrap"
  }

  /** The schema's enum check on `status`: only the four listed spellings are accepted. */
  function ParseStatus(s: string): (r: Option<Status>)
    ensures r.Some? <==> s in {"New", "In Progress", "Repaired", "Scrap"}
    ensures r.Some? ==> StatusName(r.value) == s
  {
    if s == "New" then Some(New)
    else if s == "In Progress" then Some(InProgress)
    else if s == "Repaired" then Some(Repaired)
    else if s == "Scrap" then Some(Scrap)
    else None
  }

  lemma ParseStatusName(st: Status)
    ensures ParseStatus(StatusName(st)) == Some(st)
  {
  }

  /** A maintenance request. `duration` is the field the controller records and
      `hoursSpent` the one Request.js declares and the router records. */
  datatype Request = Request(
    subject: string,
    requestType: RequestType,
    equipment: Id,
    team: Option<Id>,
    assignedTo: Option<Id>,
    status: Status,
    scheduledDate: Option<Date>,
    duration: Option<int>,
    hoursSpent: Option<int>)

  /** The Request.js `required` checks that the types above do not already enforce:
      the required subject and equipment reference must be non-empty. */
  predicate RequestSchemaValid(r: Request) {
    r.subject != "" && r.equipment != ""
  }

  /** A request document as Request.js builds it when only the given fields are set:
      status takes its default and the optional fields stay unset. */
  function NewRequest(subject: string, t: RequestType, equipment: Id,
                      team: Option<Id>, scheduledDate: Option<Date>): (r: Request)
    ensures r.status == New
    ensures r.assignedTo == None && r.duration == None && r.hoursSpent == None
    ensures r.subject == subject && r.requestType == t && r.equipment == equipment
    ensures r.team == team && r.scheduledDate == scheduledDate
    ensures RequestSchemaValid(r) <==> subject != "" && equipment != ""
  {
    Request(subject, t, equipment, team, None, New, scheduledDate, None, None)
  }

  /** A piece of equipment. `team` is the assigned maintenance team
      (`maintenanceTeam` in Equipment.js, `assignedTeam` in the controller). */
  datatype Equipment = Equipment(
    name: string,
    serialNumber: string,
    category: string,
    location: string,
    department: string,
    team: Option<Id>,
    isScrapped: bool)

  /** Equipment.js: `name` and `maintenanceTeam` are required, the rest optional. */
  predicate EquipmentSchemaValid(e: Equipment) {
    e.name != "" && e.team.Some?
  }

  /** An equipment document with the schema default for `isScrapped`. */
  function NewEquipment(name: string, serialNumber: string, department: string,
                        location: string, team: Option<Id>): (e: Equipment)
    ensures !e.isScrapped
    ensures e.name == name && e.serialNumber == serialNumber && e.team == team
    ensures e.department == department && e.location == location && e.category == ""
    ensures EquipmentSchemaValid(e) <==> name != "" && team.Some?
  {
    Equipment(name, serialNumber, "", location, department, team, false)
  }

  /** A maintenance team and its members' user ids, in the order they were added. */
  datatype Team = Team(name: string, members: seq<Id>)

  /** The opaque output of the password hash; never the password itself. */
  datatype Digest = Digest(text: string)

  /** A registered user; the password is kept only as its digest. */
  datatype User = User(name: string, email: string, password: Digest, role: string)

  /** What the API reveals about a user: every field but the password. */
  datatype UserView = UserView(id: Id, name: string, email: string, role: string)

  function ViewOf(id: Id, u: User): (v: UserView)
    ensures v.id == id && v.name == u.name && v.email == u.email && v.role == u.role
  {
    UserView(id, u.name, u.email, u.role)
  }

  /** The view never depends on the password: two users that differ only in their stored
      digest look the same from outside. */
  lemma ViewOfIgnoresPassword(id: Id, u: User, d: Digest)
    ensures ViewOf(id, u.(password := d)) == ViewOf(id, u)
  {
  }

  /** The database: one map per collection. */
  datatype Store = Store(
    users: map<Id, User>,
    teams: map<Id, Team>,
    equipment: map<Id, Equipment>,
    requests: map<Id, Request>)

  /** No two users share an email: what `register`'s lookup guards. */
  predicate EmailsUnique(users: map<Id, User>) {
    forall a, b :: a in users && b in users && users[a].email == users[b].email ==> a == b
  }

  /** No two pieces of equipment share a serial number: what `createEquipment`'s lookup guards. */
  predicate SerialsUnique(equipment: map<Id, Equipment>) {
    forall a, b ::
      a in equipment && b in equipment && equipment[a].serialNumber == equipment[b].serialNumber
      ==> a == b
  }

  /** No two teams share a name: what `createMaintenanceTeam`'s lookup guards. */
  predicate TeamNamesUnique(teams: map<Id, Team>) {
    forall a, b :: a in teams && b in teams && teams[a].name == teams[b].name ==> a == b
  }

  /** A member list without repeats. */
  predicate NoDuplicates(members: seq<Id>) {
    forall i, j :: 0 <= i < j < |members| ==> members[i] != members[j]
  }
}

=== FILE: request_controller.dfy ===
/** The maintenance-request handlers of backend/controllers/maintenanceRequest.controller.js:
    create with the team auto-fill, assign a technician, update the status, list the
    preventive requests, delete. */
module RequestController {
  import opened Common
  import opened Records
  import opened Http

  /** The equipment's team as the controller reads it after populating `assignedTeam`:
      a team that no longer exists populates to nothing, so its id is dropped. */
  function PopulatedTeam(s: Store, e: Equipment): (t: Option<Id>)
    ensures t.Some? <==> e.team.Some? && e.team.value in s.teams
    ensures t.Some? ==> t == e.team
  {
    if e.team.Some? && e.team.value in s.teams then e.team else None
  }

  /** `createMaintenanceRequest`. The request's team is copied from its equipment once,
      provided that team still exists; its status starts at New, and its scheduled date
      survives only for a Preventive request. `newId` is the id the database assigns. An unknown `type` spelling is
      refused by the schema when the document is written, which the handler reports
      as a 500. */
  function CreateMaintenanceRequest(s: Store, newId: Id, subject: string, requestType: string,
                                    equipmentId: Id, scheduledDate: Option<Date>): (r: Reply<Request>)
    requires newId !in s.requests
    ensures subject == "" || requestType == "" || equipmentId == "" ==>
      r == Reply(Refused(BAD_REQUEST, "Subject, type and equipment are required"), s)
    ensures subject != "" && requestType != "" && equipmentId != "" && equipmentId !in s.equipment ==>
      r == Reply(Refused(NOT_FOUND, "Equipment not found"), s)
    ensures r.response.Done? <==>
      subject != "" && equipmentId != "" && equipmentId in s.equipment && ParseType(requestType).Some?
    ensures !r.response.Done? ==> r.store == s
    ensures r.response.Done? ==>
      var q := r.response.value;
      && r.response.code == CREATED
      && r.store == s.(requests := s.requests[newId := q])
      && q.subject == subject && TypeName(q.requestType) == requestType && q.equipment == equipmentId
      && (q.team.Some? <==> s.equipment[equipmentId].team.Some? && s.equipment[equipmentId].team.value in s.teams)
      && (q.team.Some? ==> q.team == s.equipment[equipmentId].team)
      && q.status == New
      && q.assignedTo.None? && q.duration.None? && q.hoursSpent.None?
      && q.scheduledDate == (if requestType == "Preventive" then scheduledDate else None)
      && RequestSchemaValid(q)
  {
    if subject == "" || requestType == "" || equipmentId == "" then
      Reply(Refused(BAD_REQUEST, "Subject, type and equipment are required"), s)
    else if equipmentId !in s.equipment then
      Reply(Refused(NOT_FOUND, "Equipment not found"), s)
    else
      match ParseType(requestType)
      case None => Reply(Refused(SERVER_ERROR, "Failed to create maintenance request"), s)
      case Some(t) =>
        var q := Request(subject, t, equipmentId, PopulatedTeam(s, s.equipment[equipmentId]), None, New,
                         if requestType == "Preventive" then scheduledDate else None, None, None);
        Reply(Done(CREATED, q), s.(requests := s.requests[newId := q]))
  }

  /** `assignTechnician`: the technician is recorded and the status forced to In Progress,
      whatever it was before, Repaired and Scrap included. */
  function AssignTechnician(s: Store, id: Id, technicianId: Option<Id>): (r: Reply<Request>)
    ensures id !in s.requests ==> r == Reply(Refused(NOT_FOUND, "Maintenance request not found"), s)
    ensures id in s.requests ==>
      && r.response.Done? && r.response.code == OK
      && var q := r.response.value;
      && r.store == s.(requests := s.requests[id := q])
      && q.assignedTo == technicianId
      && q.status == InProgress
      && q.(assignedTo := s.requests[id].assignedTo, status := s.requests[id].status) == s.requests[id]
  {
    if id !in s.requests then
      Reply(Refused(NOT_FOUND, "Maintenance request not found"), s)
    else
      var q := s.requests[id].(assignedTo := technicianId, status := InProgress);
      Reply(Done(OK, q), s.(requests := s.requests[id := q]))
  }

  /** `updateRequestStatus`: any status may follow any other. The duration is written only
      when the new status is Repaired, and is then the supplied value or 0. A status outside
      the schema's enum fails validation on save, which the handler reports as a 500. */
  function UpdateRequestStatus(s: Store, id: Id, status: string, duration: Option<int>): (r: Reply<Request>)
    ensures id !in s.requests ==> r == Reply(Refused(NOT_FOUND, "Maintenance request not found"), s)
    ensures id in s.requests && ParseStatus(status).None? ==>
      r == Reply(Refused(SERVER_ERROR, "Failed to update request"), s)
    ensures r.response.Done? <==> id in s.requests && ParseStatus(status).Some?
    ensures r.response.Done? ==>
      var prev := s.requests[id];
      var q := r.response.value;
      && r.response.code == OK
      && r.store == s.(requests := s.requests[id := q])
      && StatusName(q.status) == status
      && (status == "Repaired" ==> q.duration == Some(duration.GetOr(0)))
      && (status != "Repaired" ==> q.duration == prev.duration)
      && q.(status := prev.status, duration := prev.duration) == prev
  {
    if id !in s.requests then
      Reply(Refused(NOT_FOUND, "Maintenance request not found"), s)
    else
      match ParseStatus(status)
      case None => Reply(Refused(SERVER_ERROR, "Failed to update request"), s)
      case Some(st) =>
        var prev := s.requests[id];
        var q := prev.(status := st,
                       duration := if status == "Repaired" then Some(duration.GetOr(0)) else prev.duration);
        Reply(Done(OK, q), s.(requests := s.requests[id := q]))
  }

  /** `getPreventiveRequests`: exactly the Preventive requests, unchanged. */
  function GetPreventiveRequests(s: Store): (r: Response<map<Id, Request>>)
    ensures r.Done? && r.code == OK
    ensures forall id :: id in r.value <==> id in s.requests && s.requests[id].requestType == Preventive
    ensures forall id :: id in r.value ==> r.value[id] == s.requests[id]
  {
    Done(OK, map id | id in s.requests && s.requests[id].requestType == Preventive :: s.requests[id])
  }

  /** `deleteMaintenanceRequest`: removes that one request and nothing else. */
  function DeleteMaintenanceRequest(s: Store, id: Id): (r: Reply<()>)
    ensures id !in s.requests ==> r == Reply(Refused(NOT_FOUND, "Maintenance request not found"), s)
    ensures id in s.requests ==>
      && r.response == Done(OK, ())
      && r.store.requests.Keys == s.requests.Keys - {id}
      && (forall k :: k in r.store.requests ==> r.store.requests[k] == s.requests[k])
      && r.store.users == s.users && r.store.teams == s.teams && r.store.equipment == s.equipment
  {
    if id !in s.requests then
      Reply(Refused(NOT_FOUND, "Maintenance request not found"), s)
    else
      Reply(Done(OK, ()), s.(requests := s.requests - {id}))
  }

  /** Deleting a request right after creating it gives back the store as it was. */
  lemma DeleteUndoesCreate(s: Store, newId: Id, subject: string, requestType: string,
                           equipmentId: Id, scheduledDate: Option<Date>)
    requires newId !in s.requests
    requires CreateMaintenanceRequest(s, newId, subject, requestType, equipmentId, scheduledDate).response.Done?
    ensures var created := CreateMaintenanceRequest(s, newId, subject, requestType, equipmentId, scheduledDate).store;
      DeleteMaintenanceRequest(created, newId) == Reply(Done(OK, ()), s)
  {
    var created := CreateMaintenanceRequest(s, newId, subject, requestType, equipmentId, scheduledDate).store;
    assert created.requests - {newId} == s.requests;
  }

  /** A newly created request shows up in the preventive list exactly when it was created
      Preventive; a Corrective one never does. */
  lemma PreventiveListAfterCreate(s: Store, newId: Id, subject: string, requestType: string,
                                  equipmentId: Id, scheduledDate: Option<Date>)
    requires newId !in s.requests
    requires CreateMaintenanceRequest(s, newId, subject, requestType, equipmentId, scheduledDate).response.Done?
    ensures var created := CreateMaintenanceRequest(s, newId, subject, requestType, equipmentId, scheduledDate).store;
      newId in GetPreventiveRequests(created).value <==> requestType == "Preventive"
  {
    var r := CreateMaintenanceRequest(s, newId, subject, requestType, equipmentId, scheduledDate);
    assert TypeName(r.response.value.requestType) == requestType;
  }
}

=== FILE: request_divergence.dfy ===
/** The two implementations of request creation and status update disagree. The controller
    (backend/controllers/maintenanceRequest.controller.js) drops the scheduled date of a
    Corrective request and records a duration only on Repaired; the mounted router
    (backend/routes/request.routes.js) keeps every scheduled date and records the hours
    whenever they are truthy. These lemmas pin the disagreement down exactly. */
module RequestDivergence {
  import opened Common
  import opened Records
  import opened Http
  import RequestController
  import RequestRouter
  import TeamController

  /** When both create a request from the same input, the records agree on every field but
      the scheduled date and the team. They agree on the date exactly when the request is
      Preventive or no date was supplied, and on the team exactly when the equipment's team
      is unset or still exists: the controller populates the team and drops a dangling id,
      the router copies the id as stored. */
  lemma CreateDiffersOnlyInDateAndTeam(s: Store, newId: Id, subject: string, requestType: string,
                                         equipmentId: Id, scheduledDate: Option<Date>,
                                         isValidId: string -> bool)
    requires newId !in s.requests && !isValidId("")
    requires RequestController.CreateMaintenanceRequest(s, newId, subject, requestType, equipmentId, scheduledDate).response.Done?
    requires RequestRouter.CreateRequest(s, newId, subject, equipmentId, requestType, scheduledDate, isValidId).response.Done?
    ensures
      var c := RequestController.CreateMaintenanceRequest(s, newId, subject, requestType, equipmentId, scheduledDate).response.value;
      var r := RequestRouter.CreateRequest(s, newId, subject, equipmentId, requestType, scheduledDate, isValidId).response.value;
      var t := s.equipment[equipmentId].team;
      && c.(scheduledDate := r.scheduledDate, team := r.team) == r
      && (c.scheduledDate == r.scheduledDate <==> requestType == "Preventive" || scheduledDate.None?)
      && (c.team == r.team <==> t.None? || t.value in s.teams)
  {
  }

  /** Equipment whose team has been deleted: the controller files the request under no team,
      the router under the deleted team's id. */
  lemma DanglingTeamExample()
    ensures
      var eq := NewEquipment("Chiller-1", "SN-1", "Facilities", "Roof", Some("hvac"));
      var s0 := Store(map[], map["hvac" := Team("HVAC", [])], map["chiller" := eq], map[]);
      var s := TeamController.DeleteMaintenanceTeam(s0, "hvac").store;
      var c := RequestController.CreateMaintenanceRequest(s, "r1", "Leak", "Corrective", "chiller", None);
      var r := RequestRouter.CreateRequest(s, "r1", "Leak", "chiller", "Corrective", None, id => id != "");
      && c.response.Done? && c.response.value.team == None
      && r.response.Done? && r.response.value.team == Some("hvac")
  {
    var eq := NewEquipment("Chiller-1", "SN-1", "Facilities", "Roof", Some("hvac"));
    var s0 := Store(map[], map["hvac" := Team("HVAC", [])], map["chiller" := eq], map[]);
    var s := TeamController.DeleteMaintenanceTeam(s0, "hvac").store;
    assert "hvac" !in s.teams;
  }

  /** A Corrective request with a date: the controller stores no date, the router stores it. */
  lemma CorrectiveDateExample()
    ensures
      var eq := NewEquipment("Chiller-1", "SN-1", "Facilities", "Roof", Some("hvac"));
      var s := Store(map[], map[], map["chiller" := eq], map[]);
      var c := RequestController.CreateMaintenanceRequest(s, "r1", "Leak", "Corrective", "chiller", Some(20250101));
      var r := RequestRouter.CreateRequest(s, "r1", "Leak", "chiller", "Corrective", Some(20250101), id => id != "");
      && c.response.Done? && c.response.value.scheduledDate == None
      && r.response.Done? && r.response.value.scheduledDate == Some(20250101)
  {
  }

  /** Given the same valid status and the same time value, both updates set the same status.
      They produce the same record exactly when neither records a time: the controller's
      duration is untouched (status other than Repaired) and the router's hours are
      untouched (no truthy value supplied). */
  lemma StatusUpdatesAgreeOnlyWithoutTime(s: Store, id: Id, status: string, time: Option<int>)
    requires id in s.requests && ParseStatus(status).Some?
    ensures
      var prev := s.requests[id];
      var c := RequestController.UpdateRequestStatus(s, id, status, time).response.value;
      var r := RequestRouter.PatchStatus(s, id, status, time).response.value;
      && c.status == r.status
      && (c == r <==> c.duration == prev.duration && r.hoursSpent == prev.hoursSpent)
  {
  }

  /** Time reported while moving to In Progress: the router records the hours, the
      controller records nothing. */
  lemma HoursOutsideRepairedExample()
    ensures
      var q := NewRequest("Leak", Corrective, "chiller", Some("hvac"), None);
      var s := Store(map[], map[], map[], map["r1" := q]);
      var c := RequestController.UpdateRequestStatus(s, "r1", "In Progress", Some(3));
      var r := RequestRouter.PatchStatus(s, "r1", "In Progress", Some(3));
      && c.response.Done? && c.response.value.duration == None && c.response.value.hoursSpent == None
      && r.response.Done? && r.response.value.hoursSpent == Some(3) && r.response.value.duration == None
  {
  }

  /** Repaired with no time reported: the controller records a duration of 0, the router
      records nothing. */
  lemma RepairedWithoutTimeExample()
    ensures
      var q := NewRequest("Leak", Corrective, "chiller", Some("hvac"), None);
      var s := Store(map[], map[], map[], map["r1" := q]);
      var c := RequestController.UpdateRequestStatus(s, "r1", "Repaired", None);
      var r := RequestRouter.PatchStatus(s, "r1", "Repaired", None);
      && c.response.Done? && c.response.value.duration == Some(0)
      && r.response.Done? && r.response.value.duration == None && r.response.value.hoursSpent == None
  {
  }
}

=== FILE: request_lifecycle.dfy ===
/** How the request operations move the open-request count of getEquipmentById
    (backend/controllers/equipment.controller.js), and the team auto-fill scenario. */
module RequestLifecycle {
  import opened Common
  import opened Records
  import opened Http
  import opened EquipmentController
  import RequestController
  import RequestRouter

  /** A request created through the controller is open, so its equipment's count goes up
      by one and every other count stays. */
  lemma ControllerCreateOpensOne(s: Store, newId: Id, subject: string, requestType: string,
                                 equipmentId: Id, scheduledDate: Option<Date>, other: Id)
    requires newId !in s.requests
    requires RequestController.CreateMaintenanceRequest(s, newId, subject, requestType, equipmentId, scheduledDate).response.Done?
    ensures var t := RequestController.CreateMaintenanceRequest(s, newId, subject, requestType, equipmentId, scheduledDate).store;
      && OpenRequestsCount(t, equipmentId) == OpenRequestsCount(s, equipmentId) + 1
      && (other != equipmentId ==> OpenRequestsCount(t, other) == OpenRequestsCount(s, other))
  {
    var r := RequestController.CreateMaintenanceRequest(s, newId, subject, requestType, equipmentId, scheduledDate);
    var q := r.response.value;
    assert q.status == New && q.equipment == equipmentId;
    OpenCountAfterInsert(s, newId, q, other);
    OpenCountAfterInsert(s, newId, q, equipmentId);
  }

  /** The same holds for the router, whose requests take the schema's default status New. */
  lemma RouterCreateOpensOne(s: Store, newId: Id, subject: string, equipmentId: string,
                             requestType: string, scheduledDate: Option<Date>,
                             isValidId: string -> bool, other: Id)
    requires newId !in s.requests && !isValidId("")
    requires RequestRouter.CreateRequest(s, newId, subject, equipmentId, requestType, scheduledDate, isValidId).response.Done?
    ensures var t := RequestRouter.CreateRequest(s, newId, subject, equipmentId, requestType, scheduledDate, isValidId).store;
      && OpenRequestsCount(t, equipmentId) == OpenRequestsCount(s, equipmentId) + 1
      && (other != equipmentId ==> OpenRequestsCount(t, other) == OpenRequestsCount(s, other))
  {
    var r := RequestRouter.CreateRequest(s, newId, subject, equipmentId, requestType, scheduledDate, isValidId);
    var q := r.response.value;
    assert q.status == New && q.equipment == equipmentId;
    OpenCountAfterInsert(s, newId, q, other);
    OpenCountAfterInsert(s, newId, q, equipmentId);
  }

  /** Filing a new open request under `q.equipment` adds exactly it to that equipment's open
      set and leaves every other equipment's open set as it was. */
  lemma OpenCountAfterInsert(s: Store, newId: Id, q: Request, e: Id)
    requires newId !in s.requests && IsOpen(q.status)
    ensures var t := s.(requests := s.requests[newId := q]);
      OpenRequestsCount(t, e) == OpenRequestsCount(s, e) + (if q.equipment == e then 1 else 0)
  {
    var t := s.(requests := s.requests[newId := q]);
    if q.equipment == e {
      assert OpenRequestIds(t, e) == OpenRequestIds(s, e) + {newId};
    } else {
      assert OpenRequestIds(t, e) == OpenRequestIds(s, e);
    }
  }

  /** Moving an open request to Repaired takes one off its equipment's count. */
  lemma RepairClosesOne(s: Store, id: Id, duration: Option<int>)
    requires id in s.requests && IsOpen(s.requests[id].status)
    ensures var e := s.requests[id].equipment;
      OpenRequestsCount(RequestController.UpdateRequestStatus(s, id, "Repaired", duration).store, e)
        == OpenRequestsCount(s, e) - 1
  {
    var e := s.requests[id].equipment;
    var t := RequestController.UpdateRequestStatus(s, id, "Repaired", duration).store;
    assert OpenRequestIds(t, e) == OpenRequestIds(s, e) - {id};
    assert id in OpenRequestIds(s, e);
  }

  /** Assigning a technician reopens a Repaired or Scrap request: nothing guards the terminal
      statuses, so the count goes back up by one. */
  lemma AssignReopensTerminal(s: Store, id: Id, technicianId: Option<Id>)
    requires id in s.requests && !IsOpen(s.requests[id].status)
    ensures var e := s.requests[id].equipment;
      OpenRequestsCount(RequestController.AssignTechnician(s, id, technicianId).store, e)
        == OpenRequestsCount(s, e) + 1
  {
    var e := s.requests[id].equipment;
    var t := RequestController.AssignTechnician(s, id, technicianId).store;
    assert OpenRequestIds(t, e) == OpenRequestIds(s, e) + {id};
    assert id !in OpenRequestIds(s, e);
  }

  /** Team HVAC, equipment Chiller-1 assigned to it, then a Corrective "Leak" request: the
      request is filed under HVAC, New, with no scheduled date, and the chiller has one
      open request. */
  lemma HvacScenario()
    ensures
      var s0 := Store(map[], map["hvac" := Team("HVAC", [])], map[], map[]);
      var e := EquipmentController.CreateEquipment(s0, "chiller", "Chiller-1", "SN-1", "Facilities", "Roof", Some("hvac"));
      var q := RequestController.CreateMaintenanceRequest(e.store, "leak", "Leak", "Corrective", "chiller", None);
      && e.response.Done? && q.response.Done?
      && q.response.value.team == Some("hvac")
      && q.response.value.status == New
      && q.response.value.scheduledDate == None
      && OpenRequestsCount(q.store, "chiller") == 1
  {
    var s0 := Store(map[], map["hvac" := Team("HVAC", [])], map[], map[]);
    var e := EquipmentController.CreateEquipment(s0, "chiller", "Chiller-1", "SN-1", "Facilities", "Roof", Some("hvac"));
    ControllerCreateOpensOne(e.store, "leak", "Leak", "Corrective", "chiller", None, "chiller");
    assert OpenRequestIds(e.store, "chiller") == {};
  }

  /** Deleting a request right after the router created it gives back the store as it was. */
  lemma DeleteUndoesRouterCreate(s: Store, newId: Id, subject: string, equipmentId: string,
                                 requestType: string, scheduledDate: Option<Date>,
                                 isValidId: string -> bool)
    requires newId !in s.requests && !isValidId("")
    requires RequestRouter.CreateRequest(s, newId, subject, equipmentId, requestType, scheduledDate, isValidId).response.Done?
    ensures var created := RequestRouter.CreateRequest(s, newId, subject, equipmentId, requestType, scheduledDate, isValidId).store;
      RequestController.DeleteMaintenanceRequest(created, newId) == Reply(Done(OK, ()), s)
  {
    var created := RequestRouter.CreateRequest(s, newId, subject, equipmentId, requestType, scheduledDate, isValidId).store;
    assert created.requests - {newId} == s.requests;
  }

  /** A request created through the router shows up in the preventive list exactly when it
      was created Preventive. */
  lemma PreventiveListAfterRouterCreate(s: Store, newId: Id, subject: string, equipmentId: string,
                                        requestType: string, scheduledDate: Option<Date>,
                                        isValidId: string -> bool)
    requires newId !in s.requests && !isValidId("")
    requires RequestRouter.CreateRequest(s, newId, subject, equipmentId, requestType, scheduledDate, isValidId).response.Done?
    ensures var created := RequestRouter.CreateRequest(s, newId, subject, equipmentId, requestType, scheduledDate, isValidId).store;
      newId in RequestController.GetPreventiveRequests(created).value <==> requestType == "Preventive"
  {
    var r := RequestRouter.CreateRequest(s, newId, subject, equipmentId, requestType, scheduledDate, isValidId);
    assert TypeName(r.response.value.requestType) == requestType;
  }
}

=== FILE: request_router.dfy ===
/** The request handlers the server actually mounts (backend/routes/request.routes.js,
    wired in backend/index.js): POST `/` creates, PATCH `/:id/status` updates. */
module RequestRouter {
  import opened Common
  import opened Records
  import opened Http

  /** POST `/`. The equipment id is first checked for ObjectId syntax (`isValidId`, left
      uninterpreted), then looked up. The document then goes through Request.js: the team
      is the equipment's, the status takes its default New, and the scheduled date is
      stored as supplied whatever the type. A missing subject or a type outside the enum
      fails schema validation, answered with a 500. The empty string is never a valid
      ObjectId, so the required equipment reference is never empty. */
  function CreateRequest(s: Store, newId: Id, subject: string, equipmentId: string,
                         requestType: string, scheduledDate: Option<Date>,
                         isValidId: string -> bool): (r: Reply<Request>)
    requires newId !in s.requests && !isValidId("")
    ensures !isValidId(equipmentId) ==> r == Reply(Refused(BAD_REQUEST, "Invalid equipment id"), s)
    ensures isValidId(equipmentId) && equipmentId !in s.equipment ==>
      r == Reply(Refused(NOT_FOUND, "Equipment not found"), s)
    ensures r.response.Done? <==>
      isValidId(equipmentId) && equipmentId in s.equipment && subject != "" && ParseType(requestType).Some?
    ensures !r.response.Done? ==> r.store == s
    ensures r.response.Done? ==>
      var q := r.response.value;
      && r.response.code == CREATED
      && r.store == s.(requests := s.requests[newId := q])
      && q.subject == subject && TypeName(q.requestType) == requestType && q.equipment == equipmentId
      && q.team == s.equipment[equipmentId].team
      && q.status == New
      && q.scheduledDate == scheduledDate
      && RequestSchemaValid(q)
  {
    if !isValidId(equipmentId) then
      Reply(Refused(BAD_REQUEST, "Invalid equipment id"), s)
    else if equipmentId !in s.equipment then
      Reply(Refused(NOT_FOUND, "Equipment not found"), s)
    else if subject == "" then
      Reply(Refused(SERVER_ERROR, "Request validation failed"), s)
    else
      match ParseType(requestType)
      case None => Reply(Refused(SERVER_ERROR, "Request validation failed"), s)
      case Some(t) =>
        var q := NewRequest(subject, t, equipmentId, s.equipment[equipmentId].team, scheduledDate);
        Reply(Done(CREATED, q), s.(requests := s.requests[newId := q]))
  }

  /** Equipment that satisfies Equipment.js always has a team, so the router always
      files the request under one. */
  lemma CreatedRequestHasTeam(s: Store, newId: Id, subject: string, equipmentId: string,
                              requestType: string, scheduledDate: Option<Date>,
                              isValidId: string -> bool)
    requires newId !in s.requests && !isValidId("")
    requires forall id :: id in s.equipment ==> EquipmentSchemaValid(s.equipment[id])
    ensures var r := CreateRequest(s, newId, subject, equipmentId, requestType, scheduledDate, isValidId);
      r.response.Done? ==> r.response.value.team.Some?
  {
  }

  /** PATCH `/:id/status`. The handler has no error path for an unknown id (it dereferences
      the missing document), so the id's presence is required. The status is written as
      supplied; one outside the enum fails validation on save and, with no handler to
      catch it, nothing is answered. `hoursSpent` is written only when it is truthy,
      so a 0 is ignored. */
  function PatchStatus(s: Store, id: Id, status: string, hoursSpent: Option<int>): (r: Reply<Request>)
    requires id in s.requests
    ensures ParseStatus(status).None? ==> r == Reply(NoResponse, s)
    ensures r.response.Done? <==> ParseStatus(status).Some?
    ensures r.response.Done? ==>
      var prev := s.requests[id];
      var q := r.response.value;
      && r.response.code == OK
      && r.store == s.(requests := s.requests[id := q])
      && StatusName(q.status) == status
      && (hoursSpent.Some? && hoursSpent.value != 0 ==> q.hoursSpent == hoursSpent)
      && (hoursSpent.None? || hoursSpent.value == 0 ==> q.hoursSpent == prev.hoursSpent)
      && q.(status := prev.status, hoursSpent := prev.hoursSpent) == prev
  {
    match ParseStatus(status)
    case None => Reply(NoResponse, s)
    case Some(st) =>
      var prev := s.requests[id];
      var truthy := hoursSpent.Some? && hoursSpent.value != 0;
      var q := prev.(status := st, hoursSpent := if truthy then hoursSpent else prev.hoursSpent);
      Reply(Done(OK, q), s.(requests := s.requests[id := q]))
  }
}

=== FILE: team_controller.dfy ===
/** The team handlers of backend/controllers/maintenanceTeam.controller.js: create with
    name uniqueness, add a member, remove a member, delete. */
module TeamController {
  import opened Common
  import opened Records
  import opened Http

  /** `createMaintenanceTeam`. The name is required and must not be taken; the member list
      is the supplied one, or empty. `newId` is the id the database assigns. */
  function CreateMaintenanceTeam(s: Store, newId: Id, teamName: string, members: Option<seq<Id>>): (r: Reply<Team>)
    requires newId !in s.teams
    ensures teamName == "" ==> r == Reply(Refused(BAD_REQUEST, "Team name is required"), s)
    ensures teamName != "" && (exists id :: id in s.teams && s.teams[id].name == teamName) ==>
      r == Reply(Refused(CONFLICT, "Maintenance team already exists"), s)
    ensures r.response.Done? <==>
      teamName != "" && forall id :: id in s.teams ==> s.teams[id].name != teamName
    ensures r.response.Done? ==>
      && r.response.code == CREATED
      && r.response.value.name == teamName
      && (members.None? ==> r.response.value.members == [])
      && (members.Some? ==> r.response.value.members == members.value)
      && r.store == s.(teams := s.teams[newId := r.response.value])
    ensures TeamNamesUnique(s.teams) ==> TeamNamesUnique(r.store.teams)
  {
    if teamName == "" then
      Reply(Refused(BAD_REQUEST, "Team name is required"), s)
    else if exists id :: id in s.teams && s.teams[id].name == teamName then
      Reply(Refused(CONFLICT, "Maintenance team already exists"), s)
    else
      var t := Team(teamName, members.GetOr([]));
      Reply(Done(CREATED, t), s.(teams := s.teams[newId := t]))
  }

  /** The member list without any occurrence of `userId`. */
  function Without(members: seq<Id>, userId: Id): (r: seq<Id>)
    ensures userId !in r
    ensures forall m :: m in r <==> m in members && m != userId
    ensures IsSubsequence(r, members)
  {
    FilterIsSubsequence(members, m => m != userId);
    Filter(members, m => m != userId)
  }

  /** `addTeamMember`. The team and the user must exist, and the user must not already be
      a member; the user is then appended at the end. */
  function AddTeamMember(s: Store, teamId: Id, userId: Id): (r: Reply<Team>)
    ensures teamId !in s.teams ==> r == Reply(Refused(NOT_FOUND, "Maintenance team not found"), s)
    ensures teamId in s.teams && userId !in s.users ==> r == Reply(Refused(NOT_FOUND, "User not found"), s)
    ensures teamId in s.teams && userId in s.users && userId in s.teams[teamId].members ==>
      r == Reply(Refused(BAD_REQUEST, "User already part of this team"), s)
    ensures r.response.Done? <==>
      teamId in s.teams && userId in s.users && userId !in s.teams[teamId].members
    ensures r.response.Done? ==>
      && r.response.code == OK
      && r.response.value == s.teams[teamId].(members := s.teams[teamId].members + [userId])
      && r.store == s.(teams := s.teams[teamId := r.response.value])
      && (NoDuplicates(s.teams[teamId].members) ==> NoDuplicates(r.response.value.members))
  {
    if teamId !in s.teams then
      Reply(Refused(NOT_FOUND, "Maintenance team not found"), s)
    else if userId !in s.users then
      Reply(Refused(NOT_FOUND, "User not found"), s)
    else if userId in s.teams[teamId].members then
      Reply(Refused(BAD_REQUEST, "User already part of this team"), s)
    else
      var t := s.teams[teamId].(members := s.teams[teamId].members + [userId]);
      Reply(Done(OK, t), s.(teams := s.teams[teamId := t]))
  }

  /** `removeTeamMember`: a filter, so removing a non-member is not an error. */
  function RemoveTeamMember(s: Store, teamId: Id, userId: Id): (r: Reply<Team>)
    ensures teamId !in s.teams ==> r == Reply(Refused(NOT_FOUND, "Maintenance team not found"), s)
    ensures teamId in s.teams ==>
      && r.response.Done? && r.response.code == OK
      && r.response.value.name == s.teams[teamId].name
      && r.response.value.members == Without(s.teams[teamId].members, userId)
      && r.store == s.(teams := s.teams[teamId := r.response.value])
    ensures teamId in s.teams && userId !in s.teams[teamId].members ==> r.store == s
  {
    if teamId !in s.teams then
      Reply(Refused(NOT_FOUND, "Maintenance team not found"), s)
    else
      var members := s.teams[teamId].members;
      var t := s.teams[teamId].(members := Without(members, userId));
      WithoutNonMember(members, userId);
      Reply(Done(OK, t), s.(teams := s.teams[teamId := t]))
  }

  /** Removing someone who is not a member leaves the list as it was. */
  lemma WithoutNonMember(members: seq<Id>, userId: Id)
    ensures userId !in members ==> Without(members, userId) == members
  {
    if userId !in members {
      FilterKeepsAll(members, m => m != userId);
    }
  }

  /** Removing the same member twice is removing them once. */
  lemma RemoveIdempotent(s: Store, teamId: Id, userId: Id)
    ensures var once := RemoveTeamMember(s, teamId, userId);
      RemoveTeamMember(once.store, teamId, userId) == once
  {
    var once := RemoveTeamMember(s, teamId, userId);
    if teamId in s.teams {
      var t := once.store.teams[teamId];
      WithoutNonMember(t.members, userId);
    }
  }

  /** Removing a user right after adding them gives back the original member list. */
  lemma {:induction false} RemoveUndoesAdd(s: Store, teamId: Id, userId: Id)
    requires AddTeamMember(s, teamId, userId).response.Done?
    ensures var added := AddTeamMember(s, teamId, userId).store;
      RemoveTeamMember(added, teamId, userId).store == s
  {
    var team := s.teams[teamId];
    WithoutUndoesAppend(team.members, userId);
    var added := AddTeamMember(s, teamId, userId).store;
    var removed := RemoveTeamMember(added, teamId, userId).store;
    assert removed.teams[teamId] == team;
    assert removed.teams == s.teams;
  }

  /** Filtering out a user just appended to a list that lacked them gives the list back. */
  lemma {:induction false} WithoutUndoesAppend(members: seq<Id>, userId: Id)
    requires userId !in members
    ensures Without(members + [userId], userId) == members
  {
    FilterAppend(members, [userId], m => m != userId);
    WithoutNonMember(members, userId);
  }

  /** `deleteMaintenanceTeam`: removes that one team and nothing else. Equipment and requests
      that name the team keep naming it. */
  function DeleteMaintenanceTeam(s: Store, teamId: Id): (r: Reply<()>)
    ensures teamId !in s.teams ==> r == Reply(Refused(NOT_FOUND, "Maintenance team not found"), s)
    ensures teamId in s.teams ==>
      && r.response == Done(OK, ())
      && r.store.teams.Keys == s.teams.Keys - {teamId}
      && (forall k :: k in r.store.teams ==> r.store.teams[k] == s.teams[k])
      && r.store.users == s.users && r.store.equipment == s.equipment && r.store.requests == s.requests
    ensures TeamNamesUnique(s.teams) ==> TeamNamesUnique(r.store.teams)
  {
    if teamId !in s.teams then
      Reply(Refused(NOT_FOUND, "Maintenance team not found"), s)
    else
      Reply(Done(OK, ()), s.(teams := s.teams - {teamId}))
  }

  /** Deleting a team right after creating it gives back the store as it was. */
  lemma DeleteUndoesCreate(s: Store, newId: Id, teamName: string, members: Option<seq<Id>>)
    requires newId !in s.teams
    requires CreateMaintenanceTeam(s, newId, teamName, members).response.Done?
    ensures var created := CreateMaintenanceTeam(s, newId, teamName, members).store;
      DeleteMaintenanceTeam(created, newId) == Reply(Done(OK, ()), s)
  {
    var created := CreateMaintenanceTeam(s, newId, teamName, members).store;
    assert created.teams - {newId} == s.teams;
  }
}
